=== FILE: README.md ===
# Storefront core, modelled in Dafny

This project models the pure logic of a small storefront: a React client over
an Express server that merges a third-party product catalogue ("fakestore")
with products authored in an admin panel. Five pieces are modelled:

- **Catalogue page** (`ProductsPage`, `Text`): the AND of a case-insensitive
  title search, an optional category selection and an inclusive price range;
  twelve-item pagination with JavaScript `slice` semantics; the category
  toggle; "Clear All Filters"; the "has active filters" flag; and the effect
  that returns the page to 1 when a filter changes.
- **Product routes** (`Catalog`): `GET /api/products` (admin rows first,
  formatted with a zero rating and tagged `Admin`, then upstream items tagged
  `FakeStore`, nothing de-duplicated), `GET /api/products/featured` (whose
  `?limit=8` upstream request is an input separate from the list route's
  full fetch),
  `GET /api/products/:id` (first admin row with the id, else the upstream
  answer), and the validation step of `POST /api/admin/products`.
- **Shared shapes and the server insert schema** (`Schema`).
- **Admin dashboard** (`AdminDashboard`): the client form schema, defaults,
  submit, the Add/Cancel toggle, the reset after a create, the product count.
- **Cart page and product page** (`CartPage`, `ProductDetail`): shipping,
  grand total, free-shipping hint, line totals, the requests the stepper,
  trash and "Clear Cart" buttons send, the empty-cart branch; the detail page's route id, fetch
  guard, quantity stepper and guarded add-to-cart.

Network fetches and database reads are inputs: an `Option` whose `None` means
the call threw (the handler answers 500), or an `Upstream` value for the
single-product fetch (ok, not ok, failed). URL well-formedness (`isUrl`) and
`parseInt` (`parse`, `None` standing for NaN) are function parameters, so
every property holds whatever they decide. Prices and totals are `real`.

The model follows the code in these places, which a reader might expect to
behave otherwise:
- Pages are not clamped. A page past the last one shows nothing
  (`PageItems`), and `TotalPages` is 0 for an empty result.
- The provenance tags are `fakestore` and `admin`.
- A product lookup answers "not found" only when the upstream store answers
  not-ok for an id no admin row holds.
- The category selection is an ordered list: toggling appends or removes every
  occurrence.
- The client form's schema is looser than the server's in some fields and
  stricter in others (`SchemasDiffer`). The dashboard posts to the upstream
  store, not to this server.

## Model

| member | source | states |
|---|---|---|
| Text.Lower | client/src/pages/products.tsx:86-88 | lower-casing keeps the length, maps each character independently and leaves no capital letter |
| Text.LowerOfLower | client/src/pages/products.tsx:86-88 | lower-casing is idempotent, so lower-casing the title and the query twice changes nothing |
| Text.ContainsIffOccurs | client/src/pages/products.tsx:86-88 | the substring test holds iff the query occurs at some position of the title |
| Text.Contains | client/src/pages/products.tsx:86-88 | the empty query is found in every title, a query longer than the title never is, and one of the title's length only when equal to it |
| Text.ContainsEmptyAndSelf | client/src/pages/products.tsx:86-88 | the empty query occurs in every title, and every title contains itself |
| Schema.InsertErrors | shared/schema.ts:56-60 | a field is reported iff its check fails: title 1 to 200 characters, price above 0, description at least 10, category non-empty, image a URL |
| Schema.ParseInsert | shared/schema.ts:52-61 | a body is accepted iff all five field checks hold; the accepted record copies every field but `id` and `createdAt`; a rejection lists exactly the failing fields |
| Schema.ParseIgnoresOmittedFields | shared/schema.ts:52-55 | a body's `id` and `createdAt` never affect the outcome |
| Catalog.FormatAdmin | server/routes.ts:38-47 | an admin row keeps id, title, price, description, category and image, gets rating {0,0} and is tagged admin |
| Catalog.TagFakeStore | server/routes.ts:32 | an upstream item keeps every field and is tagged fakestore |
| Catalog.Merge | server/routes.ts:32-50 | the merged list has one entry per admin row then one per upstream item; admin entries copy their row's fields with a zero rating; upstream entries are the items tagged; an entry is tagged admin iff it comes from the admin part |
| Catalog.ListProducts | server/routes.ts:25-56 | the list route answers the merge when both sources answered and a server error otherwise, never not-found |
| Catalog.Featured | server/routes.ts:58-67 | the featured route, answering its own `?limit=8` upstream request, tags every item of that answer fakestore, keeps its other fields and adds no admin item |
| Catalog.FeaturedTagsLikeMerge | server/routes.ts:32-67 | featured tags its own upstream answer exactly as the merge tags its upstream part: for the same upstream items it is the merged list without the admin rows |
| Catalog.FindRow | server/routes.ts:74-75 | finds the first admin row with the id, or reports that none has it; an unparsable id matches none |
| Catalog.GetProduct | server/routes.ts:69-102 | the lookup answers the formatted first matching admin row; otherwise the upstream product tagged, not-found when upstream says not ok, and a server error on failure |
| Catalog.LookupAgreesWithMerge | server/routes.ts:50-88 | for an id some admin row holds, the lookup answers the first product of the merged list with that id |
| Catalog.AdminHitIgnoresUpstream | server/routes.ts:74-89 | when an admin row matches, the answer is the same whatever upstream would say, and it is tagged admin |
| Catalog.CreateAdminProduct | server/routes.ts:127-144 | a posted body is stored iff it passes the insert schema; the stored record is the parsed one stamped with the signed-in user; otherwise it is a bad request naming the failing fields |
| ProductsPage.FilterProducts | client/src/pages/products.tsx:85-96 | every shown product is from the list and passes all three tests, and the result is no longer than the list |
| ProductsPage.VisibleProducts | client/src/pages/products.tsx:82-97 | nothing is shown before the list arrives; afterwards exactly the filtered list, so only matching products |
| ProductsPage.FilterMembership | client/src/pages/products.tsx:85-96 | a product is shown iff it is in the list and matches search, category and price together |
| ProductsPage.FilterIsSubsequence | client/src/pages/products.tsx:85 | the shown list is a subsequence of the input, so relative order is kept |
| ProductsPage.FilterCounts | client/src/pages/products.tsx:85-96 | a matching product is kept as many times as it occurs, a non-matching one never |
| ProductsPage.FilterAppend | client/src/pages/products.tsx:85 | filtering a concatenation is concatenating the filtered parts |
| ProductsPage.EmptySearchAndCategoriesKeepPriceRange | client/src/pages/products.tsx:86-93 | with an empty query and no category, a product is shown iff it is in the list and in the price range |
| ProductsPage.EmptySelectionSameAsAllCategories | client/src/pages/products.tsx:89-91 | an empty category selection shows the same list as selecting every category present |
| ProductsPage.FilterStagesCommute | client/src/pages/products.tsx:85-96 | applying the three tests as separate passes, in either order, gives the combined filter |
| ProductsPage.TotalPages | client/src/pages/products.tsx:100 | the page count is the ceiling of n/12: enough pages for all results, no empty last page, 0 iff no result |
| ProductsPage.SlicesJoin | client/src/pages/products.tsx:101-104 | two adjacent `slice` windows read in turn are the single window spanning both |
| ProductsPage.PageItems | client/src/pages/products.tsx:101-104 | pages 1 to the page count hold 1 to 12 items, exactly results (page-1)*12 up to min(n, page*12); pages past the last and page 0 are empty |
| ProductsPage.PagesUpToIsPrefix | client/src/pages/products.tsx:101-104 | the first k pages, read in turn, are the first 12k results |
| ProductsPage.AllPagesRebuildResults | client/src/pages/products.tsx:100-104 | reading pages 1 to the page count in turn gives back the whole result list |
| ProductsPage.RenderBody | client/src/pages/products.tsx:255-277 | a skeleton iff loading, "No products found" iff loaded with no result, otherwise the grid holding exactly the current page's items and the page count of the results, at least 1 |
| ProductsPage.RemoveAll | client/src/pages/products.tsx:114 | removing a category drops every occurrence, keeps the others' counts and their order |
| ProductsPage.ToggleCategory | client/src/pages/products.tsx:111-117 | the clicked category's membership flips, other categories keep their counts, an absent one is appended at the end, and a duplicate-free selection stays duplicate-free |
| ProductsPage.ToggleTwiceRestores | client/src/pages/products.tsx:111-117 | toggling an unselected category twice restores the selection exactly |
| ProductsPage.ClearedShowsPriceBand | client/src/pages/products.tsx:119-129 | after clearing no filter is active and exactly the products priced 0 to 1000 are shown |
| ProductsPage.HasActiveFilters | client/src/pages/products.tsx:125-129 | a non-empty query or selection makes the flag true, and when it is false every product priced 0 to 1000 passes all three tests |
| ProductsPage.InactiveFiltersHideNothingInBand | client/src/pages/products.tsx:125-129 | when no filter is active, no product priced 0 to 1000 is hidden |
| ProductsPage.Initial | client/src/pages/products.tsx:46-51 | the page starts on 1 with an empty query, the full price range and the URL's category preselected if present |
| ProductsPage.Step | client/src/pages/products.tsx:74-198 | typing sets the query, and retyping the same query changes nothing; the slider sets both price bounds; toggling flips the category; clearing restores the cleared filters; a category link not already selected replaces the selection with that one category, otherwise nothing changes; any event that changes the filters leaves the page at 1, and toggling, the slider and clearing always reset it; going to a page changes only the page |
| ProductsPage.SelectionStaysDuplicateFree | client/src/pages/products.tsx:74-123 | under any sequence of events a category never appears twice in the selection |
| ProductsPage.FilterChangeEndsOnFirstPage | client/src/pages/products.tsx:106-109 | after any history, a final event other than going to a page that changes the state ends on page 1 |
| CartPage.ShippingFee | client/src/pages/cart.tsx:186-189 | shipping is 0 or 5, and 0 iff the subtotal is at least 50 |
| CartPage.GrandTotal | client/src/pages/cart.tsx:195-199 | the total is the subtotal plus the shipping fee, so it lies between the subtotal and the subtotal plus 5 and equals the subtotal iff shipping is free |
| CartPage.FreeShippingHint | client/src/pages/cart.tsx:219-223 | the hint is shown iff the subtotal is under 50, and its amount is positive and reaches 50 exactly |
| CartPage.HintMeansShippingCharged | client/src/pages/cart.tsx:186-221 | the hint is shown iff shipping is charged, and adding its amount makes shipping free |
| CartPage.LineTotal | client/src/pages/cart.tsx:146 | a line costs the unit price times the quantity: one item costs the unit price, none costs 0, and no line is negative for a non-negative price |
| CartPage.StepperRequest | client/src/pages/cart.tsx:104-137 | each stepper button asks to update that line's product only, by one down or one up |
| CartPage.TrashRequest | client/src/pages/cart.tsx:151 | the trash button asks to remove that line's product |
| CartPage.LineButtonsTargetTheirProduct | client/src/pages/cart.tsx:104-151 | the stepper and trash buttons of a rendered line all address the product that line shows |
| CartPage.StepperRoundTrip | client/src/pages/cart.tsx:108-133 | "-" on a line one above asks for the line's quantity, and so does "+" on a line one below that still shows at least 1; one more item adds the unit price to the line total |
| CartPage.Lines | client/src/pages/cart.tsx:62-146 | one rendered line per item, in order, with its id, title, quantity and line total |
| CartPage.Render | client/src/pages/cart.tsx:12-221 | the empty-cart view iff there are no items; otherwise the rendered lines of the items, each with its item's title and quantity, and a summary whose total is subtotal plus shipping and whose hint is the free-shipping hint of the subtotal, shown iff shipping is charged |
| ProductDetail.RouteProductId | client/src/pages/product-detail.tsx:34-35 | a missing or empty route id falls back to 0, otherwise it is the parsed id |
| ProductDetail.FetchEnabled | client/src/pages/product-detail.tsx:48 | the product is fetched iff the id is a number other than 0, so neither 0 nor NaN fetches |
| ProductDetail.MissingIdFetchesNothing | client/src/pages/product-detail.tsx:35-48 | without a route id the product fetch stays disabled |
| ProductDetail.AfterPress | client/src/pages/product-detail.tsx:184-205 | "-" never goes below 1 and otherwise subtracts one; "+" adds one |
| ProductDetail.Presses | client/src/pages/product-detail.tsx:187-201 | from a positive quantity any sequence of presses keeps it positive, and it moves by at most one per press |
| ProductDetail.PressesUndo | client/src/pages/product-detail.tsx:187-201 | "-" undoes "+", and "+" undoes "-" iff the quantity was above 1 |
| ProductDetail.HandleAddToCart | client/src/pages/product-detail.tsx:51-59 | the store is called iff the product has loaded, with that product and the current quantity |
| ProductDetail.AddedQuantityPositive | client/src/pages/product-detail.tsx:36-53 | starting from 1, whatever is pressed, the store receives a positive quantity |
| AdminDashboard.FormErrors | client/src/pages/admin-dashboard.tsx:37-43 | a field is reported iff its client check fails: title at least 2, price at least 1, description at least 5, category non-empty, image a URL |
| AdminDashboard.Submit | client/src/pages/admin-dashboard.tsx:195-198 | the form posts iff all five client checks hold, and then posts the values unchanged; otherwise it shows exactly the fields that fail the client schema |
| AdminDashboard.DefaultsRejected | client/src/pages/admin-dashboard.tsx:78-87 | the default values never submit: title, price, description and category are all reported |
| AdminDashboard.ToggleForm | client/src/pages/admin-dashboard.tsx:182 | the Add/Cancel button flips whether the form is shown and keeps the values |
| AdminDashboard.ToggleTwiceRestores | client/src/pages/admin-dashboard.tsx:182 | pressing the button twice restores the dashboard |
| AdminDashboard.CreateSucceeded | client/src/pages/admin-dashboard.tsx:100-107 | after a successful create the form is closed and holds the default values |
| AdminDashboard.ProductCount | client/src/pages/admin-dashboard.tsx:169 | the count is the list's length, or 0 when there is no list |
| AdminDashboard.ClientAndLengthsImplyServer | client/src/pages/admin-dashboard.tsx:37-43 | client-valid values with a title of at most 200 and a description of at least 10 pass the server schema |
| AdminDashboard.ServerAndMinimaImplyClient | shared/schema.ts:56-60 | server-valid values with a title of at least 2 and a price of at least 1 pass the client schema |
| AdminDashboard.SchemasDiffer | client/src/pages/admin-dashboard.tsx:37-43 | a five-character description passes the client and fails the server; a price of 0.5 does the reverse |

The `source` field of a `Product` is an `Option<Source>` with two tags, so
"absent, fakestore or admin" holds by construction (shared/schema.ts:78).

## Left out

- The cart store (`@/lib/cart-context`): its add, update, remove, item count and total are not part of this model. The cart page takes `items` and `total` as inputs, and the model covers only the requests the page sends.
- Fetching, Express and the database: `server/storage.ts`, status codes other than ok, 404 and 500, the `/api/auth/user` route, the admin GET route, and the storing of a created product. These are I/O and appear as inputs.
- The products page's own fetches of products and categories from the upstream store are I/O. Their results are inputs (`VisibleProducts`, `RenderBody`).
- Authentication: the admin redirect effect, the login page and the routing shell wrap Firebase and the router.
- Presentation: home page, header, hero, product card, not-found page, the filter sheet's open state, animations, `toFixed` formatting and star rendering.
- URL well-formedness (`isUrl`) and `parseInt` (`parse`) are parameters. `parseFloat` is not modelled: form values are reals, so a NaN price typed into the form is left out.
- Text.Lower: lower-cases ASCII letters only, whereas `toLowerCase` applies the full Unicode case mapping.
- AdminDashboard.FormErrors: counts string length in Unicode scalar values, whereas zod counts UTF-16 code units, so a title such as "🎁" has length 1 here and 2 in the form.
- AdminDashboard.Submit: inherits the same length count from `FormErrors`, so the boundary of each length check can fall one character differently for text outside the Basic Multilingual Plane.
- Schema.ParseInsert: inherits the same length count from `InsertErrors`, so the 200-character title limit and the 10-character description minimum are measured in scalar values rather than UTF-16 code units.
- Schema.InsertErrors: counts string length in Unicode scalar values, whereas zod counts UTF-16 code units. The two differ only for characters outside the Basic Multilingual Plane.
- Prices and totals are exact reals rather than IEEE doubles, so rounding in `price * quantity` and in totals is not modelled.
- ProductsPage.Step: applies an event and the page-reset effect as one step. The intermediate render, which shows the old page number against the new results, is not modelled. React's identity comparison of the dependency arrays is modelled per event: toggling, the slider and clearing always make a new array.

=== FILE: admin_dashboard.dfy ===
/**
 The admin dashboard (client/src/pages/admin-dashboard.tsx): the client-side
 form schema, the form's default values, submitting, the Add/Cancel toggle,
 the reset after a successful create, and the product count card. The
 client schema is separate from, and differs from, the server's insert
 schema in module Schema; the lemmas at the end relate the two.
 */
module AdminDashboard {
  import opened Schema

  /** The values held by the add-product form. */
  datatype FormValues = FormValues(title: string, price: real, description: string, category: string, image: string)

  /** The values the form starts from and is reset to. */
  const DefaultValues := FormValues("", 0.0, "", "", "")

  /** The fields of `v` that fail the client schema, in schema order. */
  function FormErrors(v: FormValues, isUrl: string -> bool): (errs: seq<Field>)
    ensures Title in errs <==> |v.title| < 2
    ensures Price in errs <==> v.price < 1.0
    ensures Description in errs <==> |v.description| < 5
    ensures Category in errs <==> |v.category| < 1
    ensures Image in errs <==> !isUrl(v.image)
  {
    (if |v.title| >= 2 then [] else [Title])
    + (if v.price >= 1.0 then [] else [Price])
    + (if |v.description| >= 5 then [] else [Description])
    + (if |v.category| >= 1 then [] else [Category])
    + (if isUrl(v.image) then [] else [Image])
  }

  /** The client schema accepts the values. */
  predicate ClientAccepts(v: FormValues, isUrl: string -> bool) {
    FormErrors(v, isUrl) == []
  }

  /** Submitting either shows the failing fields or posts the values. */
  datatype Submission = ShowErrors(fields: seq<Field>) | Post(values: FormValues)

  function Submit(v: FormValues, isUrl: string -> bool): (s: Submission)
    ensures s.Post? <==>
      |v.title| >= 2 && v.price >= 1.0 && |v.description| >= 5 && |v.category| >= 1 && isUrl(v.image)
    ensures s.Post? ==> s.values == v
    ensures s.ShowErrors? ==> |s.fields| > 0 && s.fields == FormErrors(v, isUrl)
  {
    var errs := FormErrors(v, isUrl);
    if errs == [] then Post(v) else ShowErrors(errs)
  }

  /** The untouched form does not validate, whatever counts as a URL: its
      title, price, description and category are all reported. */
  lemma DefaultsRejected(isUrl: string -> bool)
    ensures Submit(DefaultValues, isUrl).ShowErrors?
    ensures forall f :: f in [Title, Price, Description, Category] ==> f in Submit(DefaultValues, isUrl).fields
  {
  }

  /** Whether the form card is open, and the form's values. */
  datatype Dashboard = Dashboard(showForm: bool, values: FormValues)

  const InitialDashboard := Dashboard(false, DefaultValues)

  /** The Add Product / Cancel button. */
  function ToggleForm(d: Dashboard): (r: Dashboard)
    ensures r.showForm != d.showForm && r.values == d.values
  {
    d.(showForm := !d.showForm)
  }

  lemma ToggleTwiceRestores(d: Dashboard)
    ensures ToggleForm(ToggleForm(d)) == d
  {
  }

  /** After a successful create the form is reset and closed. */
  function CreateSucceeded(d: Dashboard): (r: Dashboard)
    ensures !r.showForm && r.values == DefaultValues
    ensures r == InitialDashboard
  {
    Dashboard(false, DefaultValues)
  }

  /** The "Total Products" card: the list's length, or 0 before it arrives. */
  function ProductCount<T>(products: Option<seq<T>>): (n: nat)
    ensures products.None? ==> n == 0
    ensures products.Some? ==> n == |products.value|
  {
    if products.Some? then |products.value| else 0
  }

  /** The insert body the server would receive for the form values. */
  function AsBody(v: FormValues): AdminProductBody {
    AdminProductBody(None, v.title, v.price, v.description, v.category, v.image, None, None)
  }

  /** Values the client form accepts pass the server schema as soon as the
      title is at most 200 characters and the description at least 10. */
  lemma ClientAndLengthsImplyServer(v: FormValues, isUrl: string -> bool)
    requires ClientAccepts(v, isUrl)
    requires |v.title| <= 200 && |v.description| >= 10
    ensures ParseInsert(AsBody(v), isUrl).Success?
  {
  }

  /** Values the server schema accepts pass the client form as soon as the
      title has two characters and the price is at least 1. */
  lemma ServerAndMinimaImplyClient(v: FormValues, isUrl: string -> bool)
    requires ParseInsert(AsBody(v), isUrl).Success?
    requires |v.title| >= 2 && v.price >= 1.0
    ensures ClientAccepts(v, isUrl)
  {
  }

  /** Neither schema implies the other: a five-character description passes
      the client and fails the server, and a price of 0.5 passes the server
      and fails the client. */
  lemma SchemasDiffer(isUrl: string -> bool)
    requires isUrl("https://x.io/a.png")
    ensures ClientAccepts(FormValues("Mug", 2.0, "Glaze", "home", "https://x.io/a.png"), isUrl)
    ensures ParseInsert(AsBody(FormValues("Mug", 2.0, "Glaze", "home", "https://x.io/a.png")), isUrl).Failure?
    ensures !ClientAccepts(FormValues("Mug", 0.5, "A glazed mug", "home", "https://x.io/a.png"), isUrl)
    ensures ParseInsert(AsBody(FormValues("Mug", 0.5, "A glazed mug", "home", "https://x.io/a.png")), isUrl).Success?
  {
  }
}

=== FILE: cart_page.dfy ===
/**
 The cart page (client/src/pages/cart.tsx): what it shows for the cart
 store's items and total, and the requests its buttons send to the store.
 The store itself (its merging, removal and total) is not part of this model:
 `items` and `total` are inputs, as the page receives them.
 */
module CartPage {
  import opened Schema

  const FreeShippingThreshold: real := 50.0
  const FlatShippingFee: real := 5.0

  /** Free shipping from 50 up; a flat 5 below. */
  function ShippingFee(total: real): (fee: real)
    ensures fee == 0.0 || fee == FlatShippingFee
    ensures fee == 0.0 <==> total >= FreeShippingThreshold
  {
    if total >= FreeShippingThreshold then 0.0 else FlatShippingFee
  }

  /** The order total: the subtotal plus shipping. */
  function GrandTotal(total: real): (g: real)
    ensures g == total + ShippingFee(total)
    ensures total <= g <= total + FlatShippingFee
    ensures g == total <==> total >= FreeShippingThreshold
  {
    total + ShippingFee(total)
  }

  /** "Add $x more for free shipping", shown only below the threshold. */
  function FreeShippingHint(total: real): (hint: Option<real>)
    ensures hint.Some? <==> total < FreeShippingThreshold
    ensures hint.Some? ==> hint.value > 0.0 && total + hint.value == FreeShippingThreshold
  {
    if total < FreeShippingThreshold then Some(FreeShippingThreshold - total) else None
  }

  /** The hint appears exactly when shipping is charged, and adding the
      amount it names brings the order to free shipping. */
  lemma HintMeansShippingCharged(total: real)
    ensures FreeShippingHint(total).Some? <==> ShippingFee(total) == FlatShippingFee
    ensures FreeShippingHint(total).Some? ==>
      ShippingFee(total + FreeShippingHint(total).value) == 0.0
  {
  }

  /** The amount shown on a cart line. */
  function LineTotal(item: CartItem): (t: real)
    ensures t == item.product.price * item.quantity as real
    ensures item.quantity == 1 ==> t == item.product.price
    ensures item.quantity == 0 ==> t == 0.0
    ensures item.product.price >= 0.0 && item.quantity >= 0 ==> t >= 0.0
  {
    item.product.price * item.quantity as real
  }

  /** What the page asks of the cart store. */
  datatype CartRequest =
    | UpdateQuantity(id: int, quantity: int)
    | RemoveFromCart(id: int)
    | ClearCart

  datatype Stepper = Decrease | Increase

  /** The request a line's "-" or "+" button sends: the line's quantity
      moved by one, for that line's product only. */
  function StepperRequest(item: CartItem, button: Stepper): (req: CartRequest)
    ensures req.UpdateQuantity? && req.id == item.product.id
    ensures button == Increase ==> req.quantity > item.quantity
    ensures button == Decrease ==> req.quantity < item.quantity
    ensures req.quantity - item.quantity == 1 || item.quantity - req.quantity == 1
  {
    match button
    case Decrease => UpdateQuantity(item.product.id, item.quantity - 1)
    case Increase => UpdateQuantity(item.product.id, item.quantity + 1)
  }

  /** The request a line's trash button sends: remove that line's product. */
  function TrashRequest(item: CartItem): (req: CartRequest)
    ensures req.RemoveFromCart? && req.id == item.product.id
  {
    RemoveFromCart(item.product.id)
  }

  /** The request the "Clear Cart" button sends. */
  const ClearCartRequest: CartRequest := ClearCart

  /** Every button on a line addresses that line's product and no other. */
  lemma LineButtonsTargetTheirProduct(items: seq<CartItem>, i: nat, b: Stepper)
    requires i < |items|
    ensures StepperRequest(items[i], b).id == Lines(items)[i].id
    ensures TrashRequest(items[i]).id == Lines(items)[i].id
  {
  }

  /** The stepper's two buttons are inverse on the page: "-" on a line
      showing one more than `item` asks for `item`'s quantity, so does "+" on
      a line showing one less (a line the page can show, quantity at least 1),
      and one more item raises the line total by exactly the unit price. */
  lemma StepperRoundTrip(item: CartItem)
    ensures StepperRequest(item.(quantity := item.quantity + 1), Decrease)
      == UpdateQuantity(item.product.id, item.quantity)
    ensures item.quantity > 1 ==>
      StepperRequest(item.(quantity := item.quantity - 1), Increase)
        == UpdateQuantity(item.product.id, item.quantity)
    ensures LineTotal(item.(quantity := item.quantity + 1)) == LineTotal(item) + item.product.price
  {
  }

  /** One rendered cart line. */
  datatype Line = Line(id: int, title: string, quantity: int, lineTotal: real)

  /** The page: the empty-cart message, or the lines and the order summary. */
  datatype CartView =
    | EmptyCart
    | Summary(lines: seq<Line>, subtotal: real, shipping: real, grandTotal: real, hint: Option<real>)

  function Lines(items: seq<CartItem>): (ls: seq<Line>)
    ensures |ls| == |items|
    ensures forall i :: 0 <= i < |items| ==>
      ls[i] == Line(items[i].product.id, items[i].product.title, items[i].quantity, LineTotal(items[i]))
  {
    if items == [] then []
    else [Line(items[0].product.id, items[0].product.title, items[0].quantity, LineTotal(items[0]))] + Lines(items[1..])
  }

  function Render(items: seq<CartItem>, total: real): (v: CartView)
    ensures v.EmptyCart? <==> |items| == 0
    ensures v.Summary? ==>
      && |v.lines| == |items|
      && (forall i :: 0 <= i < |items| ==>
            v.lines[i].id == items[i].product.id
            && v.lines[i].lineTotal == items[i].product.price * items[i].quantity as real)
      && v.subtotal == total
      && v.shipping == ShippingFee(total)
      && v.grandTotal == v.subtotal + v.shipping
      && (v.hint.Some? <==> v.shipping == FlatShippingFee)
    ensures v.Summary? ==> v.lines == Lines(items) && v.hint == FreeShippingHint(total)
    ensures v.Summary? ==> forall i :: 0 <= i < |items| ==>
      v.lines[i].title == items[i].product.title && v.lines[i].quantity == items[i].quantity
  {
    if |items| == 0 then EmptyCart
    else
      HintMeansShippingCharged(total);
      Summary(Lines(items), total, ShippingFee(total), GrandTotal(total), FreeShippingHint(total))
  }
}

=== FILE: catalog.dfy ===
/**
 The product routes of the server (server/routes.ts): the merged product
 list, the featured list and the single-product lookup. Network fetches and
 database reads are inputs: `None` stands for a fetch or query that threw,
 which the handlers turn into a server error.
 */
module Catalog {
  import opened Schema

  /** What a product route answers. */
  datatype Response<T> = Ok(value: T) | NotFound | ServerError

  /** The upstream answer to a single-product fetch: a product, a non-ok
      status, or a failure (network error or unreadable body). */
  datatype Upstream = UpstreamOk(product: Product) | UpstreamNotOk | UpstreamFailed

  /** The zero rating given to admin products, which have no reviews. */
  const NoRating := Rating(0.0, 0)

  /** An admin row in the catalogue shape: catalogue fields copied, zero rating, tagged admin. */
  function FormatAdmin(a: AdminProduct): (p: Product)
    ensures p.id == a.id && p.title == a.title && p.price == a.price
    ensures p.description == a.description && p.category == a.category && p.image == a.image
    ensures p.rating == NoRating && p.source == Some(Admin)
  {
    Product(a.id, a.title, a.price, a.description, a.category, a.image, NoRating, Some(Admin))
  }

  /** An upstream item tagged as coming from the upstream store; every other field is kept. */
  function TagFakeStore(p: Product): (t: Product)
    ensures t.source == Some(FakeStore)
    ensures t.(source := p.source) == p
  {
    p.(source := Some(FakeStore))
  }

  function FormatAll(rows: seq<AdminProduct>): (r: seq<Product>)
    ensures |r| == |rows|
    ensures forall i :: 0 <= i < |rows| ==> r[i] == FormatAdmin(rows[i])
  {
    if rows == [] then [] else [FormatAdmin(rows[0])] + FormatAll(rows[1..])
  }

  function TagAll(items: seq<Product>): (r: seq<Product>)
    ensures |r| == |items|
    ensures forall i :: 0 <= i < |items| ==> r[i] == TagFakeStore(items[i])
  {
    if items == [] then [] else [TagFakeStore(items[0])] + TagAll(items[1..])
  }

  /** The merged catalogue: every admin row first, then every upstream item,
      with nothing dropped and nothing de-duplicated. */
  function Merge(rows: seq<AdminProduct>, upstream: seq<Product>): (r: seq<Product>)
    ensures |r| == |rows| + |upstream|
    ensures forall i :: 0 <= i < |rows| ==>
      && r[i].id == rows[i].id && r[i].title == rows[i].title && r[i].price == rows[i].price
      && r[i].description == rows[i].description && r[i].category == rows[i].category
      && r[i].image == rows[i].image && r[i].rating == NoRating
    ensures forall j :: 0 <= j < |upstream| ==> r[|rows| + j] == upstream[j].(source := Some(FakeStore))
    ensures forall i :: 0 <= i < |r| ==> (r[i].source == Some(Admin) <==> i < |rows|)
  {
    FormatAll(rows) + TagAll(upstream)
  }

  /** `GET /api/products`: a failing upstream fetch or admin query is a server error. */
  function ListProducts(upstream: Option<seq<Product>>, rows: Option<seq<AdminProduct>>): (r: Response<seq<Product>>)
    ensures r.Ok? <==> upstream.Some? && rows.Some?
    ensures r.Ok? ==> r.value == Merge(rows.value, upstream.value)
    ensures !r.NotFound?
  {
    if upstream.None? || rows.None? then ServerError
    else Ok(Merge(rows.value, upstream.value))
  }

  /** `GET /api/products/featured`: the items of its own upstream request
      (`/products?limit=8`, separate from the list route's full `/products`
      fetch), each tagged, and no admin items. */
  function Featured(upstream: Option<seq<Product>>): (r: Response<seq<Product>>)
    ensures r.Ok? <==> upstream.Some?
    ensures !r.NotFound?
    ensures r.Ok? ==> |r.value| == |upstream.value|
    ensures r.Ok? ==> forall i :: 0 <= i < |r.value| ==>
      r.value[i].source == Some(FakeStore) && r.value[i].(source := upstream.value[i].source) == upstream.value[i]
  {
    if upstream.None? then ServerError else Ok(TagAll(upstream.value))
  }

  /** The position of the first row whose id equals `id`; an id that failed to
      parse (`None`, the NaN that the route's `parseInt` yields) equals no row. */
  function FindRow(rows: seq<AdminProduct>, id: Option<int>): (k: Option<nat>)
    ensures k.None? <==> forall i :: 0 <= i < |rows| ==> Some(rows[i].id) != id
    ensures k.Some? ==> k.value < |rows| && Some(rows[k.value].id) == id
    ensures k.Some? ==> forall i :: 0 <= i < k.value ==> Some(rows[i].id) != id
  {
    if rows == [] then None
    else if Some(rows[0].id) == id then Some(0)
    else match FindRow(rows[1..], id)
      case None => None
      case Some(j) => Some(j + 1)
  }

  /** `GET /api/products/:id`: the first admin row with that id wins; otherwise
      the upstream product, tagged, or not found when upstream says not ok. */
  function GetProduct(id: Option<int>, rows: Option<seq<AdminProduct>>, upstream: Upstream): (r: Response<Product>)
    ensures rows.None? ==> r == ServerError
    ensures rows.Some? && FindRow(rows.value, id).Some? ==>
      r == Ok(FormatAdmin(rows.value[FindRow(rows.value, id).value]))
    ensures rows.Some? && FindRow(rows.value, id).None? ==>
      match upstream
      case UpstreamOk(p) => r == Ok(TagFakeStore(p))
      case UpstreamNotOk => r == NotFound
      case UpstreamFailed => r == ServerError
  {
    if rows.None? then ServerError
    else match FindRow(rows.value, id)
      case Some(k) => Ok(FormatAdmin(rows.value[k]))
      case None =>
        match upstream
        case UpstreamOk(p) => Ok(TagFakeStore(p))
        case UpstreamNotOk => NotFound
        case UpstreamFailed => ServerError
  }

  /** The first product of a list with the given id. */
  function FirstWithId(ps: seq<Product>, id: int): (r: Option<Product>)
    ensures r.Some? ==> r.value in ps && r.value.id == id
    ensures r.None? <==> forall i :: 0 <= i < |ps| ==> ps[i].id != id
  {
    if ps == [] then None
    else if ps[0].id == id then Some(ps[0])
    else FirstWithId(ps[1..], id)
  }

  /** A first match inside a prefix is the first match of the whole list. */
  lemma {:induction false} FirstWithIdInPrefix(a: seq<Product>, b: seq<Product>, id: int)
    requires FirstWithId(a, id).Some?
    ensures FirstWithId(a + b, id) == FirstWithId(a, id)
  {
    if a[0].id == id {
      assert (a + b)[0] == a[0];
    } else {
      assert (a + b)[1..] == a[1..] + b;
      FirstWithIdInPrefix(a[1..], b, id);
    }
  }

  /** The first formatted row with an id is the formatted first row with that id. */
  lemma {:induction false} FirstFormattedRow(rows: seq<AdminProduct>, id: int)
    requires FindRow(rows, Some(id)).Some?
    ensures FirstWithId(FormatAll(rows), id) == Some(FormatAdmin(rows[FindRow(rows, Some(id)).value]))
  {
    if rows[0].id == id {
    } else {
      assert FormatAll(rows)[1..] == FormatAll(rows[1..]);
      FirstFormattedRow(rows[1..], id);
    }
  }

  /** For an id held by an admin row, the lookup answers with the product the
      merged list shows first for that id, whatever the upstream store holds. */
  lemma {:induction false} LookupAgreesWithMerge(rows: seq<AdminProduct>, upstream: seq<Product>, id: int, single: Upstream)
    requires exists i :: 0 <= i < |rows| && rows[i].id == id
    ensures GetProduct(Some(id), Some(rows), single).Ok?
    ensures Some(GetProduct(Some(id), Some(rows), single).value) == FirstWithId(Merge(rows, upstream), id)
  {
    FirstFormattedRow(rows, id);
    FirstWithIdInPrefix(FormatAll(rows), TagAll(upstream), id);
  }

  /** A lookup hit in the admin rows does not depend on the upstream answer. */
  lemma AdminHitIgnoresUpstream(id: Option<int>, rows: seq<AdminProduct>, u1: Upstream, u2: Upstream)
    requires FindRow(rows, id).Some?
    ensures GetProduct(id, Some(rows), u1) == GetProduct(id, Some(rows), u2)
    ensures GetProduct(id, Some(rows), u1).Ok? && GetProduct(id, Some(rows), u1).value.source == Some(Admin)
  {
  }

  /** What `POST /api/admin/products` does with a body before storing it. */
  datatype CreateOutcome = BadRequest(fields: seq<Field>) | Store(record: InsertAdminProduct)

  /** The body is parsed against the insert schema; a valid record is stamped
      with the signed-in user as its creator, whatever the body claimed. */
  function CreateAdminProduct(body: AdminProductBody, userId: string, isUrl: string -> bool): (r: CreateOutcome)
    ensures r.Store? <==> ParseInsert(body, isUrl).Success?
    ensures r.Store? ==> r.record.createdBy == Some(userId)
    ensures r.Store? ==> r.record.(createdBy := body.createdBy) == ParseInsert(body, isUrl).value
    ensures r.BadRequest? ==> |r.fields| > 0 && r.fields == ParseInsert(body, isUrl).error
  {
    match ParseInsert(body, isUrl)
    case Success(rec) => Store(rec.(createdBy := Some(userId)))
    case Failure(errs) => BadRequest(errs)
  }

  /** The featured route tags its own upstream answer exactly as the merge
      tags its upstream part: given the same upstream items, featured is the
      merged list with the admin rows taken off. The two routes fetch
      different upstream answers, so this relates the tagging, not the lists
      the two routes return. */
  lemma {:induction false} FeaturedTagsLikeMerge(rows: seq<AdminProduct>, upstream: seq<Product>)
    ensures Featured(Some(upstream)) == Ok(Merge(rows, upstream)[|rows|..])
  {
    assert Merge(rows, upstream)[|rows|..] == TagAll(upstream);
  }
}

=== FILE: product_detail.dfy ===
/**
 The product detail page (client/src/pages/product-detail.tsx): the route id
 with its fallback, whether the product fetch runs, the quantity stepper and
 the guarded add-to-cart call.
 */
module ProductDetail {
  import opened Schema

  /** The id taken from the route. A missing or empty parameter gives 0;
      otherwise `parse` (the page's `parseInt`) decides, `None` being NaN. */
  function RouteProductId(param: Option<string>, parse: string -> Option<int>): (id: Option<int>)
    ensures param.None? || param.value == [] ==> id == Some(0)
    ensures param.Some? && param.value != [] ==> id == parse(param.value)
  {
    if param.Some? && param.value != [] then parse(param.value) else Some(0)
  }

  /** `enabled: !!productId`: the product is fetched only for a truthy id,
      and both 0 and NaN are falsy. */
  function FetchEnabled(id: Option<int>): (enabled: bool)
    ensures enabled <==> id.Some? && id.value != 0
    ensures id == Some(0) ==> !enabled
  {
    match id
    case None => false
    case Some(n) => n != 0
  }

  /** Without an id in the route nothing is fetched. */
  lemma MissingIdFetchesNothing(param: Option<string>, parse: string -> Option<int>)
    requires param.None? || param.value == []
    ensures !FetchEnabled(RouteProductId(param, parse))
  {
  }

  const InitialQuantity: int := 1

  datatype Press = Minus | Plus

  /** "-" never goes below 1; "+" adds one. */
  function AfterPress(q: int, b: Press): (r: int)
    ensures r >= 1 || (b == Plus && q < 0)
    ensures b == Plus ==> r == q + 1
    ensures b == Minus ==> r >= 1 && (r == q - 1 || (q <= 1 && r == 1))
  {
    match b
    case Minus => if q - 1 > 1 then q - 1 else 1
    case Plus => q + 1
  }

  /** How many of the presses in `bs` are `b`. */
  function CountOf(bs: seq<Press>, b: Press): nat {
    if bs == [] then 0 else (if bs[0] == b then 1 else 0) + CountOf(bs[1..], b)
  }

  /** The quantity after a run of presses, starting from `q`. From a
      positive quantity it stays positive, gains at most one per "+" and
      loses at most one per "-". */
  function Presses(q: int, bs: seq<Press>): (r: int)
    ensures q >= 1 ==> r >= 1
    ensures r <= (if q >= 1 then q else 1) + CountOf(bs, Plus)
    ensures r >= q + CountOf(bs, Plus) - CountOf(bs, Minus)
    decreases |bs|
  {
    if bs == [] then q else Presses(AfterPress(q, bs[0]), bs[1..])
  }

  /** "-" undoes "+"; "+" undoes "-" unless the quantity was already 1. */
  lemma PressesUndo(q: int)
    requires q >= 1
    ensures AfterPress(AfterPress(q, Plus), Minus) == q
    ensures AfterPress(AfterPress(q, Minus), Plus) == q <==> q > 1
  {
  }

  /** The call made to the cart store. */
  datatype AddToCart = AddToCart(product: Product, quantity: int)

  /** "Add to Cart": calls the store only once the product has loaded. */
  function HandleAddToCart(product: Option<Product>, quantity: int): (call: Option<AddToCart>)
    ensures call.Some? <==> product.Some?
    ensures call.Some? ==> call.value.product == product.value && call.value.quantity == quantity
  {
    if product.Some? then Some(AddToCart(product.value, quantity)) else None
  }

  /** Whatever the shopper presses, the store receives a positive quantity. */
  lemma AddedQuantityPositive(product: Option<Product>, bs: seq<Press>)
    ensures HandleAddToCart(product, Presses(InitialQuantity, bs)).Some? ==>
      HandleAddToCart(product, Presses(InitialQuantity, bs)).value.quantity >= 1
  {
  }
}

=== FILE: products_page.dfy ===
/**
 The catalogue page (client/src/pages/products.tsx): the three-part filter
 over the product list, the fixed twelve-item pagination, the category
 toggle, the clear-filters action, the "has active filters" flag and the
 effect that sends the page back to 1 whenever a filter changes.
 */
module ProductsPage {
  import opened Schema
  import Text

  const ItemsPerPage: nat := 12

  /** The slider's bounds, which are also the cleared price range. */
  const PriceFloor: real := 0.0
  const PriceCeiling: real := 1000.0

  /** Search text, selected categories (in selection order) and price range. */
  datatype Filters = Filters(query: string, categories: seq<string>, minPrice: real, maxPrice: real)

  /** Case-insensitive substring match of the query in the title. */
  predicate MatchesSearch(p: Product, query: string) {
    Text.Contains(Text.Lower(p.title), Text.Lower(query))
  }

  /** No selected category means no restriction. */
  predicate MatchesCategory(p: Product, categories: seq<string>) {
    |categories| == 0 || p.category in categories
  }

  /** Both ends of the range are inclusive. */
  predicate MatchesPrice(p: Product, minPrice: real, maxPrice: real) {
    minPrice <= p.price <= maxPrice
  }

  predicate Matches(p: Product, f: Filters) {
    MatchesSearch(p, f.query) && MatchesCategory(p, f.categories) && MatchesPrice(p, f.minPrice, f.maxPrice)
  }

  /** The products the filters keep, in list order. */
  function FilterProducts(ps: seq<Product>, f: Filters): (r: seq<Product>)
    ensures |r| <= |ps|
    ensures forall i :: 0 <= i < |r| ==> Matches(r[i], f) && r[i] in ps
  {
    if ps == [] then []
    else if Matches(ps[0], f) then [ps[0]] + FilterProducts(ps[1..], f)
    else FilterProducts(ps[1..], f)
  }

  /** While the product list has not arrived there is nothing to show. */
  function VisibleProducts(products: Option<seq<Product>>, f: Filters): (r: seq<Product>)
    ensures products.None? ==> r == []
    ensures products.Some? ==> r == FilterProducts(products.value, f)
    ensures products.Some? ==> |r| <= |products.value|
    ensures forall i :: 0 <= i < |r| ==> Matches(r[i], f)
  {
    if products.None? then [] else FilterProducts(products.value, f)
  }

  /** `a` is `b` with some elements left out, the rest in the same order. */
  predicate IsSubsequence<T(==)>(a: seq<T>, b: seq<T>)
    decreases |b|
  {
    if a == [] then true
    else if b == [] then false
    else if a[0] == b[0] then IsSubsequence(a[1..], b[1..])
    else IsSubsequence(a, b[1..])
  }

  /** A product is shown iff it is in the list and all three tests hold. */
  lemma {:induction false} FilterMembership(ps: seq<Product>, f: Filters, p: Product)
    ensures p in FilterProducts(ps, f) <==> p in ps && Matches(p, f)
  {
    if ps != [] {
      FilterMembership(ps[1..], f, p);
      assert ps == [ps[0]] + ps[1..];
    }
  }

  /** The filter keeps the list's relative order. */
  lemma {:induction false} FilterIsSubsequence(ps: seq<Product>, f: Filters)
    ensures IsSubsequence(FilterProducts(ps, f), ps)
  {
    if ps != [] {
      FilterIsSubsequence(ps[1..], f);
      if Matches(ps[0], f) {
        assert FilterProducts(ps, f)[1..] == FilterProducts(ps[1..], f);
      } else {
        SubsequenceOfTail(FilterProducts(ps, f), ps);
      }
    }
  }

  /** A subsequence of the tail is a subsequence of the whole list. */
  lemma {:induction false} SubsequenceOfTail<T>(a: seq<T>, b: seq<T>)
    requires b != [] && IsSubsequence(a, b[1..])
    ensures IsSubsequence(a, b)
    decreases |b|, 1
  {
    if a != [] && a[0] == b[0] {
      SubsequenceDropHead(a, b[1..]);
    }
  }

  /** Dropping the first element of a subsequence leaves a subsequence. */
  lemma {:induction false} SubsequenceDropHead<T>(a: seq<T>, c: seq<T>)
    requires a != [] && IsSubsequence(a, c)
    ensures IsSubsequence(a[1..], c)
    decreases |c|, 2
  {
    if a[0] == c[0] {
      if a[1..] != [] {
        SubsequenceOfTail(a[1..], c);
      }
    } else {
      SubsequenceDropHead(a, c[1..]);
      if a[1..] != [] {
        SubsequenceOfTail(a[1..], c);
      }
    }
  }

  /** Every matching product is kept as many times as it occurs; nothing else is kept. */
  lemma {:induction false} FilterCounts(ps: seq<Product>, f: Filters, p: Product)
    ensures multiset(FilterProducts(ps, f))[p] == if Matches(p, f) then multiset(ps)[p] else 0
  {
    if ps != [] {
      FilterCounts(ps[1..], f, p);
      assert ps == [ps[0]] + ps[1..];
    }
  }

  /** The filter of a concatenation is the concatenation of the filters. */
  lemma {:induction false} FilterAppend(a: seq<Product>, b: seq<Product>, f: Filters)
    ensures FilterProducts(a + b, f) == FilterProducts(a, f) + FilterProducts(b, f)
  {
    if a != [] {
      assert (a + b)[0] == a[0];
      assert (a + b)[1..] == a[1..] + b;
      FilterAppend(a[1..], b, f);
      if Matches(a[0], f) {
        assert FilterProducts(a, f) == [a[0]] + FilterProducts(a[1..], f);
        assert ([a[0]] + FilterProducts(a[1..], f)) + FilterProducts(b, f)
            == [a[0]] + (FilterProducts(a[1..], f) + FilterProducts(b, f));
      }
    } else {
      assert a + b == b;
    }
  }

  /** With an empty query and no category selected, exactly the products in the price range are shown. */
  lemma EmptySearchAndCategoriesKeepPriceRange(ps: seq<Product>, f: Filters, p: Product)
    requires f.query == [] && f.categories == []
    ensures p in FilterProducts(ps, f) <==> p in ps && f.minPrice <= p.price <= f.maxPrice
  {
    FilterMembership(ps, f, p);
    Text.ContainsEmptyAndSelf(Text.Lower(p.title));
  }

  /** An empty category selection never excludes a product on its own: the
      result is the same as accepting every category the list holds. */
  lemma {:induction false} EmptySelectionSameAsAllCategories(ps: seq<Product>, f: Filters)
    requires f.categories == []
    ensures FilterProducts(ps, f) == FilterProducts(ps, f.(categories := Categories(ps)))
  {
    var g := f.(categories := Categories(ps));
    assert forall i :: 0 <= i < |ps| ==> Categories(ps)[i] == ps[i].category;
    assert forall i :: 0 <= i < |ps| ==> (Matches(ps[i], f) <==> Matches(ps[i], g));
    FilterPointwise(ps, f, g);
  }

  /** The categories of a list, in list order. */
  function Categories(ps: seq<Product>): (cs: seq<string>)
    ensures |cs| == |ps|
    ensures forall i :: 0 <= i < |ps| ==> cs[i] == ps[i].category
  {
    seq(|ps|, i requires 0 <= i < |ps| => ps[i].category)
  }

  /** Filters that decide every listed product alike give the same result. */
  lemma {:induction false} FilterPointwise(ps: seq<Product>, f: Filters, g: Filters)
    requires forall i :: 0 <= i < |ps| ==> (Matches(ps[i], f) <==> Matches(ps[i], g))
    ensures FilterProducts(ps, f) == FilterProducts(ps, g)
  {
    if ps != [] {
      assert forall i :: 0 <= i < |ps[1..]| ==> ps[1..][i] == ps[i + 1];
      FilterPointwise(ps[1..], f, g);
    }
  }

  /** Keeps the products satisfying an arbitrary test, in order. */
  function KeepWhere(ps: seq<Product>, keep: Product -> bool): (r: seq<Product>)
    ensures |r| <= |ps|
    ensures forall i :: 0 <= i < |r| ==> keep(r[i]) && r[i] in ps
  {
    if ps == [] then []
    else if keep(ps[0]) then [ps[0]] + KeepWhere(ps[1..], keep)
    else KeepWhere(ps[1..], keep)
  }

  /** Applying two tests one after the other is applying their conjunction. */
  lemma {:induction false} KeepWhereTwice(ps: seq<Product>, a: Product -> bool, b: Product -> bool, both: Product -> bool)
    requires forall p :: both(p) == (a(p) && b(p))
    ensures KeepWhere(KeepWhere(ps, a), b) == KeepWhere(ps, both)
  {
    if ps != [] {
      KeepWhereTwice(ps[1..], a, b, both);
    }
  }

  /** The combined filter equals keeping by the combined test. */
  lemma {:induction false} FilterIsKeepWhere(ps: seq<Product>, f: Filters, keep: Product -> bool)
    requires forall p :: keep(p) == Matches(p, f)
    ensures FilterProducts(ps, f) == KeepWhere(ps, keep)
  {
    if ps != [] {
      FilterIsKeepWhere(ps[1..], f, keep);
    }
  }

  /** The three tests may be applied as separate passes in either order:
      search, then category, then price gives the same list as price, then
      category, then search, and both give the combined filter. */
  lemma FilterStagesCommute(ps: seq<Product>, f: Filters)
    ensures FilterProducts(ps, f) ==
      KeepWhere(KeepWhere(KeepWhere(ps,
        p => MatchesSearch(p, f.query)),
        p => MatchesCategory(p, f.categories)),
        p => MatchesPrice(p, f.minPrice, f.maxPrice))
    ensures FilterProducts(ps, f) ==
      KeepWhere(KeepWhere(KeepWhere(ps,
        p => MatchesPrice(p, f.minPrice, f.maxPrice)),
        p => MatchesCategory(p, f.categories)),
        p => MatchesSearch(p, f.query))
  {
    var s := p => MatchesSearch(p, f.query);
    var c := p => MatchesCategory(p, f.categories);
    var m := p => MatchesPrice(p, f.minPrice, f.maxPrice);
    var sc := p => s(p) && c(p);
    var mc := p => m(p) && c(p);
    KeepWhereTwice(ps, s, c, sc);
    KeepWhereTwice(ps, sc, m, p => sc(p) && m(p));
    FilterIsKeepWhere(ps, f, p => sc(p) && m(p));
    KeepWhereTwice(ps, m, c, mc);
    KeepWhereTwice(ps, mc, s, p => mc(p) && s(p));
    FilterIsKeepWhere(ps, f, p => mc(p) && s(p));
  }

  // ---------------------------------------------------------------------------
  // Pagination

  /** Number of pages for `n` results: the ceiling of n / 12, so 0 for no results. */
  function TotalPages(n: nat): (t: nat)
    ensures t * ItemsPerPage >= n
    ensures t > 0 ==> (t - 1) * ItemsPerPage < n
    ensures t == 0 <==> n == 0
  {
    (n + ItemsPerPage - 1) / ItemsPerPage
  }

  /** How `Array.prototype.slice` resolves an index: negative counts from the end; the result is clamped to the list. */
  function SliceIndex(len: nat, x: int): (k: nat)
    ensures k <= len
    ensures 0 <= x <= len ==> k == x
    ensures x > len ==> k == len
    ensures x < 0 ==> k == if len + x < 0 then 0 else len + x
  {
    if x < 0 then (if len + x < 0 then 0 else len + x)
    else if x > len then len
    else x
  }

  /** `s.slice(start, end)`. */
  function JsSlice<T>(s: seq<T>, start: int, end: int): (r: seq<T>)
    ensures |r| <= |s|
    ensures SliceIndex(|s|, start) < SliceIndex(|s|, end) ==> r == s[SliceIndex(|s|, start)..SliceIndex(|s|, end)]
    ensures SliceIndex(|s|, start) >= SliceIndex(|s|, end) ==> r == []
  {
    var from := SliceIndex(|s|, start);
    var to := SliceIndex(|s|, end);
    if from < to then s[from..to] else []
  }

  /** Adjacent slices join: slicing [a, b) and then [b, c) reads [a, c). */
  lemma SlicesJoin<T>(s: seq<T>, a: nat, b: nat, c: nat)
    requires a <= b <= c
    ensures JsSlice(s, a, b) + JsSlice(s, b, c) == JsSlice(s, a, c)
  {
    var ka, kb, kc := SliceIndex(|s|, a), SliceIndex(|s|, b), SliceIndex(|s|, c);
    if ka < kb && kb < kc {
      assert s[ka..kb] + s[kb..kc] == s[ka..kc];
    }
  }

  function Min(a: int, b: int): int {
    if a <= b then a else b
  }

  /** The items shown on `page` (1-based). The page is not clamped: a page
      past the last one shows nothing. */
  function PageItems<T>(filtered: seq<T>, page: int): (r: seq<T>)
    ensures 1 <= page <= TotalPages(|filtered|) ==>
      && 1 <= |r| <= ItemsPerPage
      && r == filtered[(page - 1) * ItemsPerPage .. Min(|filtered|, page * ItemsPerPage)]
    ensures page > TotalPages(|filtered|) ==> r == []
    ensures page == 0 ==> r == []
  {
    JsSlice(filtered, (page - 1) * ItemsPerPage, page * ItemsPerPage)
  }

  /** Pages 1 to `k`, concatenated. */
  function PagesUpTo<T>(filtered: seq<T>, k: nat): seq<T> {
    if k == 0 then [] else PagesUpTo(filtered, k - 1) + PageItems(filtered, k)
  }

  /** The first `k` pages are the first 12·k results. */
  lemma {:induction false} PagesUpToIsPrefix<T>(filtered: seq<T>, k: nat)
    ensures PagesUpTo(filtered, k) == filtered[..Min(|filtered|, k * ItemsPerPage)]
  {
    if k > 0 {
      PagesUpToIsPrefix(filtered, k - 1);
      var lo := Min(|filtered|, (k - 1) * ItemsPerPage);
      var hi := Min(|filtered|, k * ItemsPerPage);
      if k <= TotalPages(|filtered|) {
        assert lo == (k - 1) * ItemsPerPage;
        assert filtered[..lo] + filtered[lo..hi] == filtered[..hi];
      } else {
        assert lo == |filtered| && hi == |filtered|;
      }
    }
  }

  /** Reading every page in turn shows each result exactly once, in order. */
  lemma {:induction false} AllPagesRebuildResults<T>(filtered: seq<T>)
    ensures PagesUpTo(filtered, TotalPages(|filtered|)) == filtered
  {
    PagesUpToIsPrefix(filtered, TotalPages(|filtered|));
  }

  /** What the product area shows: a skeleton while loading, the "No
      products found" message for an empty result, otherwise the current
      page of results with the pager. */
  datatype Body = Loading | NoProducts | Grid(items: seq<Product>, page: int, totalPages: nat)

  function RenderBody(isLoading: bool, filtered: seq<Product>, page: int): (b: Body)
    ensures b.Loading? <==> isLoading
    ensures b.NoProducts? <==> !isLoading && |filtered| == 0
    ensures b.Grid? ==>
      && b.page == page
      && b.totalPages >= 1 && b.totalPages * ItemsPerPage >= |filtered|
      && (1 <= page <= b.totalPages ==> 1 <= |b.items| <= ItemsPerPage)
      && (page > b.totalPages ==> b.items == [])
    ensures b.Grid? ==> b.items == PageItems(filtered, page) && b.totalPages == TotalPages(|filtered|)
  {
    if isLoading then Loading
    else if |filtered| == 0 then NoProducts
    else Grid(PageItems(filtered, page), page, TotalPages(|filtered|))
  }

  // ---------------------------------------------------------------------------
  // Category selection and filter state

  predicate NoDuplicates<T(==)>(s: seq<T>) {
    forall i, j :: 0 <= i < j < |s| ==> s[i] != s[j]
  }

  /** `cats` without any occurrence of `c`, the rest kept in order. */
  function RemoveAll(cats: seq<string>, c: string): (r: seq<string>)
    ensures c !in r
    ensures forall d :: d != c ==> multiset(r)[d] == multiset(cats)[d]
    ensures IsSubsequence(r, cats)
  {
    if cats == [] then []
    else if cats[0] == c then
      var rest := RemoveAll(cats[1..], c);
      SubsequenceOfTail(rest, cats);
      assert cats == [cats[0]] + cats[1..];
      rest
    else
      var rest := RemoveAll(cats[1..], c);
      assert cats == [cats[0]] + cats[1..];
      assert ([cats[0]] + rest)[1..] == rest;
      [cats[0]] + rest
  }

  /** Clicking a category: a selected one is removed (every occurrence), an
      unselected one is appended. Only that category's membership changes. */
  function ToggleCategory(cats: seq<string>, c: string): (r: seq<string>)
    ensures c in r <==> c !in cats
    ensures forall d :: d != c ==> multiset(r)[d] == multiset(cats)[d]
    ensures c !in cats ==> |r| == |cats| + 1 && r[..|cats|] == cats
    ensures c in cats ==> IsSubsequence(r, cats)
    ensures NoDuplicates(cats) ==> NoDuplicates(r)
  {
    if c in cats then
      var r := RemoveAll(cats, c);
      NoDuplicatesOfSubsequence(r, cats);
      r
    else
      assert (cats + [c])[..|cats|] == cats;
      cats + [c]
  }

  /** A subsequence of a duplicate-free list is duplicate-free. */
  lemma {:induction false} NoDuplicatesOfSubsequence<T>(a: seq<T>, b: seq<T>)
    requires IsSubsequence(a, b)
    ensures NoDuplicates(b) ==> NoDuplicates(a)
    decreases |b|
  {
    if a != [] && NoDuplicates(b) {
      if a[0] == b[0] {
        NoDuplicatesOfSubsequence(a[1..], b[1..]);
        SubsequenceMembers(a[1..], b[1..]);
        assert forall j :: 0 < j < |a| ==> a[j] in b[1..];
        assert forall k :: 0 <= k < |b[1..]| ==> b[1..][k] != b[0];
      } else {
        NoDuplicatesOfSubsequence(a, b[1..]);
      }
    }
  }

  /** Every element of a subsequence is an element of the list. */
  lemma {:induction false} SubsequenceMembers<T>(a: seq<T>, b: seq<T>)
    requires IsSubsequence(a, b)
    ensures forall x :: x in a ==> x in b
    decreases |b|
  {
    if a != [] {
      if a[0] == b[0] {
        SubsequenceMembers(a[1..], b[1..]);
        assert forall x :: x in a ==> x == a[0] || x in a[1..];
      } else {
        SubsequenceMembers(a, b[1..]);
      }
    }
  }

  /** Toggling an unselected category twice restores the selection exactly. */
  lemma ToggleTwiceRestores(cats: seq<string>, c: string)
    requires c !in cats
    ensures ToggleCategory(ToggleCategory(cats, c), c) == cats
  {
    RemoveAppended(cats, c);
  }

  lemma {:induction false} RemoveAppended(cats: seq<string>, c: string)
    requires c !in cats
    ensures RemoveAll(cats + [c], c) == cats
  {
    if cats != [] {
      assert (cats + [c])[1..] == cats[1..] + [c];
      RemoveAppended(cats[1..], c);
    }
  }

  /** The state "Clear All Filters" sets. */
  const Cleared := Filters("", [], PriceFloor, PriceCeiling)

  /** Shown as the "Clear All Filters" button and the filter badge. */
  function HasActiveFilters(f: Filters): (active: bool)
    ensures !active ==> forall p: Product {:trigger Matches(p, f)} ::
      PriceFloor <= p.price <= PriceCeiling ==> Matches(p, f)
    ensures f.query != [] || f.categories != [] ==> active
  {
    Text.EmptyFoundEverywhere();
    |f.query| > 0 || |f.categories| > 0 || f.minPrice > PriceFloor || f.maxPrice < PriceCeiling
  }

  /** After clearing, no filter is active and exactly the products priced 0 to 1000 are shown. */
  lemma ClearedShowsPriceBand(ps: seq<Product>, p: Product)
    ensures !HasActiveFilters(Cleared)
    ensures p in FilterProducts(ps, Cleared) <==> p in ps && 0.0 <= p.price <= 1000.0
  {
    EmptySearchAndCategoriesKeepPriceRange(ps, Cleared, p);
  }

  /** With no active filter, no product priced inside the slider band is hidden. */
  lemma InactiveFiltersHideNothingInBand(ps: seq<Product>, f: Filters, p: Product)
    requires !HasActiveFilters(f)
    requires p in ps && PriceFloor <= p.price <= PriceCeiling
    ensures p in FilterProducts(ps, f)
  {
    assert f.query == [] && f.categories == [];
    EmptySearchAndCategoriesKeepPriceRange(ps, f, p);
  }

  // ---------------------------------------------------------------------------
  // The page state and the reset-to-first-page effect

  datatype View = View(filters: Filters, page: int)

  /** User actions on the page. `FollowCategoryLink` is a `?category=` URL parameter arriving. */
  datatype Event =
    | Search(query: string)
    | Toggle(category: string)
    | SetPriceRange(minPrice: real, maxPrice: real)
    | ClearAll
    | GoToPage(page: int)
    | FollowCategoryLink(category: string)

  /** The initial state: the URL's category (if any) is preselected; page 1. */
  function Initial(categoryParam: Option<string>): (v: View)
    ensures v.page == 1
    ensures v.filters.query == [] && v.filters.minPrice == PriceFloor && v.filters.maxPrice == PriceCeiling
    ensures categoryParam.Some? && categoryParam.value != [] ==> v.filters.categories == [categoryParam.value]
    ensures categoryParam.None? || categoryParam.value == [] ==> v.filters == Cleared
  {
    var cats := if categoryParam.Some? && categoryParam.value != [] then [categoryParam.value] else [];
    View(Filters("", cats, PriceFloor, PriceCeiling), 1)
  }

  /** One event followed by the reset effect. The effect compares its
      dependencies by identity: a new query string counts only when its text
      differs, while toggling, the slider and clearing always produce a new
      array and so always reset the page. */
  function Step(v: View, e: Event): (r: View)
    ensures r.filters != v.filters ==> r.page == 1
    ensures (e.Toggle? || e.SetPriceRange? || e.ClearAll?) ==> r.page == 1
    ensures e.GoToPage? ==> r.filters == v.filters && r.page == e.page
    ensures e.Toggle? ==> r.filters == v.filters.(categories := ToggleCategory(v.filters.categories, e.category))
    ensures e.ClearAll? ==> r.filters == Cleared
    ensures e.Search? ==> r.filters == v.filters.(query := e.query) && (e.query == v.filters.query ==> r == v)
    ensures e.SetPriceRange? ==> r.filters == v.filters.(minPrice := e.minPrice, maxPrice := e.maxPrice)
    ensures e.FollowCategoryLink? ==>
      if e.category != [] && e.category !in v.filters.categories
      then r.filters == v.filters.(categories := [e.category]) && r.page == 1
      else r == v
  {
    var f := v.filters;
    match e
    case Search(q) => if q == f.query then v else View(f.(query := q), 1)
    case Toggle(c) => View(f.(categories := ToggleCategory(f.categories, c)), 1)
    case SetPriceRange(lo, hi) => View(f.(minPrice := lo, maxPrice := hi), 1)
    case ClearAll => View(Cleared, 1)
    case GoToPage(p) => View(f, p)
    case FollowCategoryLink(c) =>
      if c != [] && c !in f.categories then View(f.(categories := [c]), 1) else v
  }

  function Run(v: View, es: seq<Event>): View
    decreases |es|
  {
    if es == [] then v else Run(Step(v, es[0]), es[1..])
  }

  /** Whatever the user does, a category never appears twice in the selection. */
  lemma {:induction false} SelectionStaysDuplicateFree(v: View, es: seq<Event>)
    requires NoDuplicates(v.filters.categories)
    ensures NoDuplicates(Run(v, es).filters.categories)
    decreases |es|
  {
    if es != [] {
      SelectionStaysDuplicateFree(Step(v, es[0]), es[1..]);
    }
  }

  /** After any run, a run that ends by changing the filters ends on page 1. */
  lemma {:induction false} FilterChangeEndsOnFirstPage(v: View, es: seq<Event>, e: Event)
    requires Run(v, es) != Run(v, es + [e]) && !e.GoToPage?
    ensures Run(v, es + [e]).page == 1
    decreases |es|
  {
    if es == [] {
      assert Run(v, [e]) == Step(v, e);
    } else {
      assert (es + [e])[1..] == es[1..] + [e];
      FilterChangeEndsOnFirstPage(Step(v, es[0]), es[1..], e);
    }
  }
}

=== FILE: schema.dfy ===
/**
 The shapes shared by server and client (shared/schema.ts): the catalogue
 `Product`, the stored admin product row, the insert payload the server
 accepts, and the cart line. Also the server-side insert validator, which is
 a conjunction of one check per field.
 */
module Schema {

  datatype Option<T> = None | Some(value: T)

  datatype Result<T, E> = Success(value: T) | Failure(error: E)

  /** Provenance tag of a catalogue product. The optional `source` field of a
      `Product` is therefore absent or exactly one of these two tags. */
  datatype Source = FakeStore | Admin

  datatype Rating = Rating(rate: real, count: int)

  /** A catalogue product, as served by the upstream store or built from an admin row. */
  datatype Product = Product(
    id: int,
    title: string,
    price: real,
    description: string,
    category: string,
    image: string,
    rating: Rating,
    source: Option<Source>)

  /** One cart line: a product and the quantity held for it. */
  datatype CartItem = CartItem(product: Product, quantity: int)

  /** A stored row of the admin products table. */
  datatype AdminProduct = AdminProduct(
    id: int,
    title: string,
    price: real,
    description: string,
    category: string,
    image: string,
    createdBy: Option<string>,
    createdAt: Option<int>)

  /** A request body posted to the admin create route: any fields a client sends,
      including an `id` or `createdAt` that the insert shape does not carry. */
  datatype AdminProductBody = AdminProductBody(
    id: Option<int>,
    title: string,
    price: real,
    description: string,
    category: string,
    image: string,
    createdBy: Option<string>,
    createdAt: Option<int>)

  /** The insert shape: the table's columns minus the generated `id` and `createdAt`. */
  datatype InsertAdminProduct = InsertAdminProduct(
    title: string,
    price: real,
    description: string,
    category: string,
    image: string,
    createdBy: Option<string>)

  /** The validated fields of the admin product form and insert payload. */
  datatype Field = Title | Price | Description | Category | Image

  /** The fields of `body` that fail the server's insert schema, in schema order. */
  function InsertErrors(body: AdminProductBody, isUrl: string -> bool): (errs: seq<Field>)
    ensures Title in errs <==> !(1 <= |body.title| <= 200)
    ensures Price in errs <==> !(body.price > 0.0)
    ensures Description in errs <==> !(|body.description| >= 10)
    ensures Category in errs <==> !(|body.category| >= 1)
    ensures Image in errs <==> !isUrl(body.image)
    ensures |errs| <= 5
  {
    (if 1 <= |body.title| <= 200 then [] else [Title])
    + (if body.price > 0.0 then [] else [Price])
    + (if |body.description| >= 10 then [] else [Description])
    + (if |body.category| >= 1 then [] else [Category])
    + (if isUrl(body.image) then [] else [Image])
  }

  /** Parses a posted body against the insert schema: either the insert
      record, with `id` and `createdAt` dropped and every other field copied,
      or the list of offending fields. */
  function ParseInsert(body: AdminProductBody, isUrl: string -> bool): (r: Result<InsertAdminProduct, seq<Field>>)
    ensures r.Success? <==>
      && 1 <= |body.title| <= 200
      && body.price > 0.0
      && |body.description| >= 10
      && |body.category| >= 1
      && isUrl(body.image)
    ensures r.Success? ==>
      && r.value.title == body.title
      && r.value.price == body.price
      && r.value.description == body.description
      && r.value.category == body.category
      && r.value.image == body.image
      && r.value.createdBy == body.createdBy
    ensures r.Failure? ==> |r.error| > 0 && forall f :: f in r.error <==> f in InsertErrors(body, isUrl)
  {
    var errs := InsertErrors(body, isUrl);
    if errs == [] then
      Success(InsertAdminProduct(body.title, body.price, body.description, body.category, body.image, body.createdBy))
    else
      Failure(errs)
  }

  /** Two bodies that differ only in the fields the insert shape omits parse alike. */
  lemma ParseIgnoresOmittedFields(body: AdminProductBody, id: Option<int>, createdAt: Option<int>, isUrl: string -> bool)
    ensures ParseInsert(body.(id := id, createdAt := createdAt), isUrl) == ParseInsert(body, isUrl)
  {
  }
}

=== FILE: text.dfy ===
/**
 Character-level helpers behind the catalogue search box: lower-casing a
 string and asking whether one string occurs inside another, as JavaScript's
 `String.prototype.toLowerCase` and `String.prototype.includes` do for ASCII
 text.
 */
module Text {

  /** True iff `c` is an ASCII capital letter. */
  predicate IsUpper(c: char) {
    'A' <= c <= 'Z'
  }

  /** Lower-cases one character; only ASCII capitals are changed. */
  function LowerChar(c: char): (r: char)
    ensures !IsUpper(r)
    ensures !IsUpper(c) ==> r == c
    ensures IsUpper(c) ==> 'a' <= r <= 'z' && r as int - c as int == 'a' as int - 'A' as int
  {
    if IsUpper(c) then (c as int - 'A' as int + 'a' as int) as char else c
  }

  /** No character of `s` is an ASCII capital. */
  predicate IsLower(s: string) {
    forall i :: 0 <= i < |s| ==> !IsUpper(s[i])
  }

  /** Lower-cases every character of `s`, keeping its length. */
  function Lower(s: string): (r: string)
    ensures |r| == |s|
    ensures IsLower(r)
    ensures forall i :: 0 <= i < |s| ==> r[i] == LowerChar(s[i])
  {
    seq(|s|, i requires 0 <= i < |s| => LowerChar(s[i]))
  }

  /** Lower-casing twice is lower-casing once, and a lower-case string is its own lower case. */
  lemma LowerOfLower(s: string)
    ensures IsLower(s) ==> Lower(s) == s
    ensures Lower(Lower(s)) == Lower(s)
  {
    if IsLower(s) {
      assert forall i :: 0 <= i < |s| ==> Lower(s)[i] == s[i];
    }
  }

  /** `prefix` is an initial segment of `s`. */
  predicate StartsWith(s: string, prefix: string) {
    |prefix| <= |s| && s[..|prefix|] == prefix
  }

  /** `needle` occurs in `hay` starting at position `i`. */
  predicate OccursAt(hay: string, needle: string, i: int) {
    0 <= i && i + |needle| <= |hay| && hay[i..i + |needle|] == needle
  }

  /** `needle` occurs somewhere in `hay`; the empty string occurs in every
      string, and a string longer than `hay` never does. */
  function Contains(hay: string, needle: string): (found: bool)
    ensures |needle| == 0 ==> found
    ensures found ==> |needle| <= |hay|
    ensures |needle| == |hay| ==> (found <==> hay == needle)
    decreases |hay|
  {
    StartsWith(hay, needle) || (|hay| > 0 && Contains(hay[1..], needle))
  }

  /** The scanning definition of `Contains` agrees with the positional one. */
  lemma {:induction false} ContainsIffOccurs(hay: string, needle: string)
    ensures Contains(hay, needle) <==> exists i :: OccursAt(hay, needle, i)
    decreases |hay|
  {
    if StartsWith(hay, needle) {
      assert OccursAt(hay, needle, 0);
    } else if |hay| == 0 {
      assert forall i :: !OccursAt(hay, needle, i);
    } else {
      ContainsIffOccurs(hay[1..], needle);
      if Contains(hay[1..], needle) {
        var i :| OccursAt(hay[1..], needle, i);
        assert hay[1..][i..i + |needle|] == hay[i + 1..i + 1 + |needle|];
        assert OccursAt(hay, needle, i + 1);
      } else {
        forall i | OccursAt(hay, needle, i)
          ensures OccursAt(hay[1..], needle, i - 1)
        {
          assert i != 0;
          assert hay[1..][i - 1..i - 1 + |needle|] == hay[i..i + |needle|];
        }
      }
    }
  }

  /** Every string contains the empty string and itself. */
  lemma ContainsEmptyAndSelf(s: string)
    ensures Contains(s, "")
    ensures Contains(s, s)
  {
    assert StartsWith(s, "");
    assert StartsWith(s, s);
  }

  /** The empty query is found in every string. */
  lemma EmptyFoundEverywhere()
    ensures forall s: string {:trigger Contains(s, "")} :: Contains(s, "")
  {
    forall s: string
      ensures Contains(s, "")
    {
      ContainsEmptyAndSelf(s);
    }
  }
}
